=== FILE: README.md ===
# Penumbra IMC meta store and mod list, in Dafny

This project models two pieces of Penumbra, a plugin that overrides the game's asset loads per mod collection.

- **The IMC part of a collection's meta manager.** It covers:
  - the patched IMC files by game path;
  - the live IMC manipulations, with insert-or-replace semantics;
  - the `ForceFile`/`RemoveFile` redirections the store issues to its collection;
  - the virtual path `|{name}_{counter}|{path}` those redirections point to;
  - the process-wide manager count that keeps the two resource-loader handlers subscribed;
  - the two handlers, which write a patched file into an IMC resource and clear the file's `ChangesSinceLoad` flag.
- **The mod manager's list bookkeeping.** It covers:
  - adding, deleting, reloading, scanning and rediscovering mods while every mod's `Index` stays equal to its position;
  - the ordered classification of a rename target;
  - the move that acts on that classification;
  - the `NewMods` update on path-change events.

Every operation is a pure function over an immutable state, except `ScanMods` and `DiscoverMods`, which are methods. `ScanMods` appends the queued mods in a loop; `DiscoverMods` clears the list and calls it.

Code this model does not see is passed in as parameters:
- the IMC file format;
- `ImcManipulation.Apply`/`GamePath`;
- `ImcFile` construction, `Reset` and `GetDefault`;
- `Mod.LoadMod`/`Reload`;
- the file system.

In the IMC store these are function-typed fields of `ImcEnv`. In the mod manager they are `FileSystem`, booleans and outcome values.

Files:
- `Wrappers.dfy`: `Option`.
- `ImcPaths.dfy`: decimal rendering of the counter, `LastIndexOf`, the virtual path, and the collection-name split with its round trip and injectivity.
- `MetaImc.dfy`: the store, `ApplyMod`/`RevertMod`/`ResetImc`/`SetImcFiles`/`DisposeImc`, and the handler subscription count.
- `ImcHandlers.dfy`: the load customization and the loaded-resource check, over a registry of stores by collection name.
- `ModManager.dfy`: the mod list, `NewDirectoryValid`, `MoveModDirectory` and `OnModPathChange`.

Behaviour of the code that is easy to miss, which the model follows:
- `ResetImc` never releases a file. In both branches it resets every file in place and keeps the file map's keys; with a cache it only issues a `RemoveFile` first.
- `DisposeImc` issues no `RemoveFile`.
- `RevertMod` removes the manipulation from the live list before it looks for the file. So a revert without a stored file returns false with the manipulation already gone.
- `RevertMod` catches no exception; one escaping from the apply is modelled as `Raised`.
- `ImcLoadHandler` writes the file into the resource whenever the collection owns it, without looking at `ChangesSinceLoad`, and then clears the flag.

## Model

| member | source | states |
|---|---|---|
| ImcPaths.IntToString | Penumbra/Meta/Manager/MetaManager.Imc.cs:148-149 | the rendered counter is non-empty, contains neither an underscore nor a pipe character, and starts with `-` exactly for a negative counter |
| ImcPaths.IntToStringInjective | Penumbra/Meta/Manager/MetaManager.Imc.cs:148-149 | two counters with the same rendering are equal |
| ImcPaths.LastIndexOf | Penumbra/Meta/Manager/MetaManager.Imc.cs:164 | the result is -1 or an index holding the character, and no later index holds it (so -1 exactly when the character is absent) |
| ImcPaths.CollectionNameOf | Penumbra/Meta/Manager/MetaManager.Imc.cs:164-165 | without `_` the whole segment is the name; otherwise the segment is the name, `_`, and a tail free of `_` |
| ImcPaths.CollectionNameRoundTrip | Penumbra/Meta/Manager/MetaManager.Imc.cs:148-165 | the name recovered from `{name}_{counter}` is exactly `name`, even when `name` contains underscores |
| ImcPaths.CreateImcPath | Penumbra/Meta/Manager/MetaManager.Imc.cs:148-149 | the virtual path starts with a pipe, ends in a pipe followed by the game path, and the collection name the load handler recovers from the segment in between is exactly `name`; `GenerationIsolation`, `CreateImcPathInjective` and `CollectionNameRoundTrip` state its injectivity and round trip |
| ImcPaths.GenerationIsolation | Penumbra/Meta/Manager/MetaManager.Imc.cs:148-149 | one collection name under two different counters never produces the same virtual path, whatever the game paths |
| ImcPaths.CreateImcPathInjective | Penumbra/Meta/Manager/MetaManager.Imc.cs:148-149 | for game paths without a pipe character, equal virtual paths have equal name, counter and game path |
| MetaImc.AddOrReplace | Penumbra/Meta/Manager/MetaManager.Imc.cs:57 | the new manipulation is in the list; the length grows by one only when no equal manipulation was there; every other entry keeps its position; nothing else is added; no duplicates arise |
| MetaImc.AddOrReplaceIdempotent | Penumbra/Meta/Manager/MetaManager.Imc.cs:57 | inserting the same manipulation twice gives the same list as inserting it once |
| MetaImc.LastWriteWins | Penumbra/Meta/Manager/MetaManager.Imc.cs:57 | after two writes with the same key, the list holds exactly one manipulation with that key, the second |
| MetaImc.Remove | Penumbra/Meta/Manager/MetaManager.Imc.cs:91 | reports removal exactly when an equal manipulation was live; then the first equal one is dropped and the others keep their order; every unequal manipulation is kept; in a duplicate-free list no equal one remains |
| MetaImc.RemoveUndoesAdd | Penumbra/Meta/Manager/MetaManager.Imc.cs:57-91 | removing a manipulation that was just added to a list without it restores the list |
| MetaImc.ApplyMod | Penumbra/Meta/Manager/MetaManager.Imc.cs:55-86 | the list is insert-or-replaced whatever happens. Success means the stored or freshly opened file accepted the apply. Only on success is the file stored, marked changed, and appended to the enumeration order if new. On failure the file map is untouched. The exception counter grows by exactly one when opening or applying threw. One `ForceFile` to the virtual path is issued exactly on success with a cache |
| MetaImc.ApplyModPreservesValid | Penumbra/Meta/Manager/MetaManager.Imc.cs:57-71 | applying keeps the store invariant: the order lists each file once and the live list has no two equal manipulations |
| MetaImc.ApplyModIdempotentOnList | Penumbra/Meta/Manager/MetaManager.Imc.cs:57 | applying the same manipulation twice leaves the same live list as applying it once |
| MetaImc.RevertMod | Penumbra/Meta/Manager/MetaManager.Imc.cs:88-116 | it returns false and changes nothing when the switch is off or the manipulation is not live. Otherwise it removes the manipulation first. It returns true exactly when a stored file accepted the default entry, and only then updates the file and forces the virtual path (with a cache). An exception from the apply escapes |
| MetaImc.RevertModPreservesValid | Penumbra/Meta/Manager/MetaManager.Imc.cs:88-116 | reverting keeps the store invariant |
| MetaImc.RevertUndoesApplyOnList | Penumbra/Meta/Manager/MetaManager.Imc.cs:88-91 | reverting a manipulation applied to a list that lacked it restores the live list |
| MetaImc.ResetImc | Penumbra/Meta/Manager/MetaManager.Imc.cs:34-53 | empties the live list; keeps the file keys and order; resets every file; with a cache issues `RemoveFile` for exactly the stored paths in enumeration order, without one issues nothing |
| MetaImc.SetImcFiles | Penumbra/Meta/Manager/MetaManager.Imc.cs:21-32 | without a cache nothing changes; with one a `ForceFile` to the virtual path is issued for exactly the stored paths, in enumeration order, and nothing else in the store changes |
| MetaImc.SetupImcDelegate | Penumbra/Meta/Manager/MetaManager.Imc.cs:130-137 | the count goes up by one; both handlers gain a subscription exactly on the 0 to 1 transition; subscribed-iff-count-positive is kept |
| MetaImc.RestoreImcDelegate | Penumbra/Meta/Manager/MetaManager.Imc.cs:139-146 | the count goes down by one; subscriptions change only when the count reaches 0, and from a consistent count of 1 both handlers end unsubscribed; consistency is kept |
| MetaImc.SetupThenRestore | Penumbra/Meta/Manager/MetaManager.Imc.cs:130-146 | a setup followed by a restore returns count and subscriptions to where they were, from any state |
| MetaImc.RestoreThenSetup | Penumbra/Meta/Manager/MetaManager.Imc.cs:130-146 | a restore followed by a setup returns a consistent state to itself |
| MetaImc.DisposeImc | Penumbra/Meta/Manager/MetaManager.Imc.cs:118-128 | empties the file map and the live list, leaves the redirections, the collection and the exception counter alone, and leaves the subscriptions exactly as `RestoreImcDelegate` does: the count drops by one |
| ImcHandlers.MarkServed | Penumbra/Meta/Manager/MetaManager.Imc.cs:172-173 | after a replacement only the served file's flag changes, to false |
| ImcHandlers.ImcLoadHandler | Penumbra/Meta/Manager/MetaManager.Imc.cs:152-177 | a non-IMC load is not handled, returns 0 and changes nothing. An IMC load is handled and returns the game's own result. A file is written exactly when the collection named by the segment's prefix exists, has a cache and owns the game path. That file's flag is then cleared |
| ImcHandlers.ImcResourceHandler | Penumbra/Meta/Manager/MetaManager.Imc.cs:179-194 | it replaces exactly when the resource is IMC, its resolve data is a collection with a cache that owns the path, and that file has changed since load. The flag is then cleared; otherwise nothing changes |
| ImcHandlers.LoadThroughVirtualPathServesCollection | Penumbra/Meta/Manager/MetaManager.Imc.cs:148-177 | a load through a collection's own `{name}_{counter}` segment is served from that collection's file |
| ImcHandlers.ForcedPathServesItsStore | Penumbra/Meta/Manager/MetaManager.Imc.cs:148-177 | in a registry where every store sits under its own collection's name, the load handler, given the two parts of the virtual path a store forces for one of its files, serves that store's file |
| ImcHandlers.AppliedChangeServedOnce | Penumbra/Meta/Manager/MetaManager.Imc.cs:179-194 | after a successful apply in a cached collection, the loaded-resource check replaces the resource once with the new bytes; a second check does nothing |
| ImcHandlers.LoadClearsStaleness | Penumbra/Meta/Manager/MetaManager.Imc.cs:152-194 | after the load customization served a file, the loaded-resource check does not serve it again |
| ModManager.ModSitsAtItsIndex | Penumbra/Mods/Manager/Mod.Manager.cs:106 | under the index invariant a listed mod is the list entry at its own index |
| ModManager.AddMod | Penumbra/Mods/Manager/Mod.Manager.cs:71-85 | it is a no-op when a mod with the folder name exists or loading failed. Otherwise it appends one mod with index = old count and raises Added with the new list. Index invariant and unique folders are kept |
| ModManager.DeleteMod | Penumbra/Mods/Manager/Mod.Manager.cs:92-111 | it removes exactly the entry at the mod's index and lowers the index of every later mod by one. The Deleted event carries the list before removal. The directory is gone afterwards exactly when it existed and its delete succeeded; a failed delete is ignored and the mod is removed from the list all the same. The index invariant is kept |
| ModManager.DeleteRemovesTheMod | Penumbra/Mods/Manager/Mod.Manager.cs:105-108 | for a listed mod, the event's list still contains it and the remaining mods are all the others, in order |
| ModManager.DeleteUndoesAdd | Penumbra/Mods/Manager/Mod.Manager.cs:71-111 | adding a mod and deleting it restores the list |
| ModManager.ReloadMod | Penumbra/Mods/Manager/Mod.Manager.cs:117-135 | earlier events are kept and StartingReload is raised first. A failed reload is then a delete. A successful one renames only the mod's own entry, raises Reloaded with the new list, and raises DataChanged with the old name exactly when the metadata changed; the file system is not touched. The index invariant is kept |
| ModManager.ScanMods | Penumbra/Mods/Manager/Mod.Manager.cs:301-320 | the queued mods are appended in queue order with consecutive indices from the prior count and fresh, distinct ids; earlier mods are untouched; the index invariant is kept |
| ModManager.DiscoverMods | Penumbra/Mods/Manager/Mod.Manager.cs:53-68 | `NewMods` is emptied. The list becomes exactly the queue when the base directory is valid and exists, and is empty otherwise. Indices are 0..n-1. Nothing on disk is deleted or moved |
| ModManager.NewDirectoryValid | Penumbra/Mods/Manager/Mod.Manager.cs:200-224 | each state holds exactly when its test holds and all earlier tests (empty, identical, invalid symbols, file, missing, non-empty) failed; a directory is returned exactly in the last four states |
| ModManager.ProceedExactlyOnFreeTarget | Penumbra/Mods/Manager/Mod.Manager.cs:147-172 | the classifier yields NonExisting or ExistsEmpty exactly when the name is usable and there is neither a file nor a non-empty directory of that name |
| ModManager.MoveModDirectory | Penumbra/Mods/Manager/Mod.Manager.cs:142-197 | every state other than NonExisting/ExistsEmpty, and a failed delete of an empty target, leave everything unchanged; a failed move leaves only the empty target's delete behind. When the move goes ahead, the empty target is deleted, the directory and then the data file are moved, and the mod's entry gets the new folder (and, after a successful reload, the new name) with the same index. A successful reload then raises Moved with both folders, followed by DataChanged exactly when the metadata changed; a failed reload raises nothing. No other entry changes |
| ModManager.MoveOnlyToFreeTarget | Penumbra/Mods/Manager/Mod.Manager.cs:142-197 | the mod's entry changes exactly when the target was free, an existing empty target could be deleted, and the move succeeded; whenever anything at all changes, the target was free |
| ModManager.OnModPathChange | Penumbra/Mods/Manager/Mod.Manager.cs:228-245 | Added puts the mod in `NewMods`, Deleted takes it out, any other change leaves `NewMods` alone; Moved with both directories moves the data file from the old to the new one, and nothing else touches the file system |
| ModManager.AddedThenDeletedRestoresNewMods | Penumbra/Mods/Manager/Mod.Manager.cs:231-238 | an Added then Deleted event for a mod not in `NewMods` leaves `NewMods` unchanged |

## Left out

- The IMC binary layout and `ImcFile`'s constructor, `Reset`, `Replace`, `GetDefault` and `Dispose` are not part of this model. Neither are `ImcManipulation.Apply` and `GamePath`. They are the `ImcEnv` oracles. The `apply` oracle is assumed to set `ChangesSinceLoad` whenever it succeeds, and to leave the file untouched when it returns false or throws.
- Exceptions from `manip.GamePath()` in `ApplyMod` are not modelled. That call sits outside the `try`, and the model's oracle is total. The same holds for `ImcFile.GetDefault` in `RevertMod`.
- Native interop is reduced to its effect: `ResourceManager*`, `SeFileDescriptor*`, `ResourceHandle*`, and the original read `ReadSqPackHook.Original` (passed in as the byte it returns). `file.Replace` is modelled as "these bytes were served". Subscriptions to the resource loader's events are subscription counts.
- `CollectionManager.ByName` is an exact lookup in a registry map. The resolve data of a loaded resource is the name of its collection, or None when it is not a collection.
- Strings are character sequences. The load handler works on UTF-8 bytes, but `_` is a single byte that never occurs inside a multi-byte sequence, so searching for it is the same on both.
- The collection's `RecomputeCounter` is taken as an unbounded integer. Its 32-bit increments happen in collection code that is not part of this model.
- Logging and thread safety: the code takes no locks, and nothing about concurrent loads is modelled.
- The file system is an oracle: existence and emptiness predicates, the symbol replacement, and booleans for whether a delete or move succeeded (`deleteOk` in `DeleteMod` and `MoveModDirectory`, `moveOk` in `MoveModDirectory`). This covers `Directory.Delete`, `Directory.Move`, `EnumerateFileSystemInfos` and `Refresh`.
- `Mod.Creator.SplitMultiGroups` changes files on disk; it is not modelled.
- In `ScanMods`, the `Parallel.ForEach` load is given as the resulting queue. Its order depends on thread scheduling.
- `SetBaseDirectory`, `TriggerModDirectoryChange` and the configuration save are not part of this model. Neither are `ModBackup` migration, the `ModManager` constructor and `Dispose`, and `DataEditor.MoveDataFile`'s internals, which are logged only as a file-system effect.
- `OnModPathChange` is modelled as its own transition. `ModManager` is a sealed, non-partial class, the handler is private, and the constructor subscribes nothing, so in this code the handler is never subscribed to `ModPathChanged`; `AddMod` and `DeleteMod` therefore do not call it.
- Removal of redirections happens only in `ResetImc`; no other operation in this file issues `RemoveFile`.
- Exception handling inside the two handlers is not modelled; the code shows none.
- MetaImc.ApplyMod: `ForceFile` and `RemoveFile` are assumed never to throw. In the code a `ForceFile` that throws inside the `try` would count an exception and return false with the file already stored; the model does not cover that path.
- MetaImc.ApplyMod: an `apply` that throws is assumed to leave the stored file untouched. `ImcFile` is a reference in the code, so a partial in-place write before the throw would stay visible; the model does not cover that.
- ModManager.ReloadMod: requires the mod to be the list entry at its own index. The code mutates the mod object itself, so a mod whose index points at a different entry would change only that object, not the list; the model leaves that case out.
- ModManager.MoveModDirectory: requires the mod to be the list entry at its own index, for the same reason as `ReloadMod`.
- ModManager.DeleteMod: requires the mod's index to lie inside the list. With an index out of range the code has already deleted the directory and raised Deleted when `RemoveAt` throws `ArgumentOutOfRangeException`; the model leaves that path out.
- ModManager.ReloadMod and ModManager.MoveModDirectory: a failed `Mod.Reload` is taken to leave the mod's name as it was. What the reload writes into the mod before failing is not part of this model.
- The file dictionary's enumeration order is modelled as `order`, the order in which keys were first added. That is how .NET's `Dictionary` behaves when keys are never removed singly, not a documented guarantee; it also assumes no other part of the partial `MetaManager` removes IMC file keys. `SetImcFiles` and `ResetImc` state their redirection logs in that order.

=== FILE: ImcHandlers.dfy ===
/** The two resource-loader handlers the IMC managers share: the load
    customization that fetches an IMC resource and overwrites it with the
    requesting collection's patched file, and the loaded-resource check that
    overwrites an already loaded IMC resource whose patched file changed
    since. Both reduce to a decision over the per-file `changesSinceLoad`
    flag and to clearing that flag after every replacement. */
module ImcHandlers {
  import opened Wrappers
  import opened MetaImc
  import ImcPaths

  /** The IMC stores of all collections, by collection name. */
  type Registry = map<string, ImcCache>

  /** Every store is registered under its own collection's name, as
      `ByName` finds a collection by the name it carries. */
  predicate WellFormed(reg: Registry)
  {
    forall n :: n in reg ==> reg[n].collection.name == n
  }

  datatype ResourceType = Imc | OtherResource

  /** The empty game path, used when the requested path is not a valid
      game path. */
  const EmptyGamePath: GamePath := ""

  /** Collection `name` exists and has a cache, so its IMC store serves loads. */
  predicate Serving(reg: Registry, name: string)
  {
    name in reg && reg[name].collection.hasCache
  }

  /** The store after its file at `p` was written into a resource: only the
      flag of that file changes, to false. */
  function MarkServed(c: ImcCache, p: GamePath): (r: ImcCache)
    requires p in c.files
    ensures r.files.Keys == c.files.Keys
    ensures r.files[p].data == c.files[p].data && !r.files[p].changesSinceLoad
    ensures forall q :: q in c.files && q != p ==> r.files[q] == c.files[q]
    ensures r.order == c.order && r.manipulations == c.manipulations
    ensures r.collection == c.collection && r.redirections == c.redirections
    ensures r.imcExceptions == c.imcExceptions
    ensures Valid(c) ==> Valid(r)
  {
    c.(files := c.files[p := c.files[p].(changesSinceLoad := false)])
  }

  /** Result of the load customization: whether it handled the load, the
      byte it hands back, the bytes it wrote into the resource (if any), and
      the registry afterwards. */
  datatype LoadStep = LoadStep(handled: bool, ret: bv8, served: Option<Bytes>, registry: Registry)

  /** The load customization. `split` is the `{name}_{counter}` segment of
      the requested path, `originalRet` what the game's own read returned,
      and `toGamePath` the conversion of the requested path to a game path
      (None when it is not one). */
  function ImcLoadHandler(split: string, path: string, fileType: ResourceType, originalRet: bv8,
                          toGamePath: string -> Option<GamePath>, reg: Registry): (r: LoadStep)
    ensures fileType != Imc ==> r == LoadStep(false, 0, None, reg)
    ensures fileType == Imc ==> r.handled && r.ret == originalRet
    ensures var name := ImcPaths.CollectionNameOf(split);
            var p := toGamePath(path).GetOr(EmptyGamePath);
            r.served.Some? <==> fileType == Imc && Serving(reg, name) && p in reg[name].files
    ensures r.served.Some? ==>
              var name := ImcPaths.CollectionNameOf(split);
              var p := toGamePath(path).GetOr(EmptyGamePath);
              && r.served.value == reg[name].files[p].data
              && r.registry == reg[name := MarkServed(reg[name], p)]
    ensures r.served.None? ==> r.registry == reg
  {
    if fileType != Imc then LoadStep(false, 0, None, reg)
    else
      var name := ImcPaths.CollectionNameOf(split);
      var p := toGamePath(path).GetOr(EmptyGamePath);
      if Serving(reg, name) && p in reg[name].files then
        LoadStep(true, originalRet, Some(reg[name].files[p].data), reg[name := MarkServed(reg[name], p)])
      else
        LoadStep(true, originalRet, None, reg)
  }

  /** Result of the loaded-resource check: the bytes written into the
      resource (if any) and the registry afterwards. */
  datatype ResourceStep = ResourceStep(served: Option<Bytes>, registry: Registry)

  /** The loaded-resource check. `resolveData` names the collection the
      resource was resolved for, or is None when it was not a collection. */
  function ImcResourceHandler(fileType: ResourceType, gamePath: GamePath, resolveData: Option<string>,
                              reg: Registry): (r: ResourceStep)
    ensures r.served.Some? <==>
              && fileType == Imc && resolveData.Some?
              && Serving(reg, resolveData.value)
              && gamePath in reg[resolveData.value].files
              && reg[resolveData.value].files[gamePath].changesSinceLoad
    ensures r.served.Some? ==>
              var name := resolveData.value;
              && r.served.value == reg[name].files[gamePath].data
              && r.registry == reg[name := MarkServed(reg[name], gamePath)]
    ensures r.served.None? ==> r.registry == reg
  {
    if fileType != Imc || resolveData.None? || !Serving(reg, resolveData.value) then
      ResourceStep(None, reg)
    else
      var c := reg[resolveData.value];
      if gamePath !in c.files || !c.files[gamePath].changesSinceLoad then
        ResourceStep(None, reg)
      else
        ResourceStep(Some(c.files[gamePath].data), reg[resolveData.value := MarkServed(c, gamePath)])
  }

  /** A load through a collection's own virtual-path segment is answered
      from that collection's store, whatever underscores its name holds. */
  lemma LoadThroughVirtualPathServesCollection(name: string, counter: int, path: string,
                                               originalRet: bv8, toGamePath: string -> Option<GamePath>,
                                               reg: Registry)
    requires Serving(reg, name)
    requires toGamePath(path).Some? && toGamePath(path).value in reg[name].files
    ensures var r := ImcLoadHandler(ImcPaths.SplitSegment(name, counter), path, Imc, originalRet, toGamePath, reg);
            && r.served == Some(reg[name].files[toGamePath(path).value].data)
            && !r.registry[name].files[toGamePath(path).value].changesSinceLoad
  {
    ImcPaths.CollectionNameRoundTrip(name, counter);
  }

  /** The virtual path a store forces for one of its files leads the load
      handler back to that same store: the segment between the pipes names
      the store's own collection, and the file served is the store's. */
  lemma ForcedPathServesItsStore(reg: Registry, n: string, p: GamePath, originalRet: bv8,
                                 toGamePath: string -> Option<GamePath>)
    requires WellFormed(reg) && Serving(reg, n)
    requires toGamePath(p).Some? && toGamePath(p).value in reg[n].files
    ensures var full := CollectionImcPath(reg[n].collection, p);
            var r := ImcLoadHandler(full[1..|full| - |p| - 1], full[|full| - |p|..], Imc, originalRet, toGamePath, reg);
            r.served == Some(reg[n].files[toGamePath(p).value].data)
  {
    var full := CollectionImcPath(reg[n].collection, p);
    assert ImcPaths.NamesCollection(full, p, n);
    assert full[|full| - |p|..] == p;
  }

  /** The staleness protocol: once an apply succeeds in a collection with a
      cache, the loaded resource for its game path is refreshed exactly
      once; a second check finds nothing to do. */
  lemma AppliedChangeServedOnce(reg: Registry, name: string, m: ImcManipulation, env: ImcEnv)
    requires Serving(reg, name)
    requires ApplyMod(reg[name], m, env).success
    ensures var step := ApplyMod(reg[name], m, env);
            var p := env.gamePath(m.key);
            var first := ImcResourceHandler(Imc, p, Some(name), reg[name := step.cache]);
            && first.served == Some(step.cache.files[p].data)
            && ImcResourceHandler(Imc, p, Some(name), first.registry).served.None?
  {
  }

  /** After the load customization wrote a file into a fresh resource, the
      loaded-resource check does not write it again until another change. */
  lemma LoadClearsStaleness(split: string, path: string, originalRet: bv8,
                            toGamePath: string -> Option<GamePath>, reg: Registry)
    requires ImcLoadHandler(split, path, Imc, originalRet, toGamePath, reg).served.Some?
    ensures var r := ImcLoadHandler(split, path, Imc, originalRet, toGamePath, reg);
            var name := ImcPaths.CollectionNameOf(split);
            ImcResourceHandler(Imc, toGamePath(path).GetOr(EmptyGamePath), Some(name), r.registry).served.None?
  {
  }
}

=== FILE: ImcPaths.dfy ===
/** The virtual path under which a collection's patched IMC file is forced
    (`|{name}_{counter}|{path}`), and the recovery of the collection name
    from the `{name}_{counter}` segment that the load handler receives. */
module ImcPaths {

  /** The character of a decimal digit. */
  function DigitChar(d: nat): (c: char)
    requires d < 10
    ensures '0' <= c <= '9'
    ensures c as int - '0' as int == d
  {
    (d + '0' as int) as char
  }

  /** Decimal rendering of a natural number, most significant digit first,
      without leading zeros. */
  function NatToString(n: nat): (s: string)
    ensures |s| >= 1
    ensures forall i :: 0 <= i < |s| ==> '0' <= s[i] <= '9'
    ensures n < 10 <==> |s| == 1
    decreases n
  {
    if n < 10 then [DigitChar(n)] else NatToString(n / 10) + [DigitChar(n % 10)]
  }

  /** Decimal rendering of a (possibly negative) integer, as string
      interpolation of an `int` produces it. */
  function IntToString(n: int): (s: string)
    ensures |s| >= 1
    ensures '_' !in s && '|' !in s
    ensures s[0] == '-' <==> n < 0
  {
    if n < 0 then "-" + NatToString(-n) else NatToString(n)
  }

  /** Two naturals with the same rendering are equal. */
  lemma {:induction false} NatToStringInjective(a: nat, b: nat)
    requires NatToString(a) == NatToString(b)
    ensures a == b
    decreases a
  {
    var s := NatToString(a);
    if a < 10 || b < 10 {
      assert a < 10 && b < 10;
      assert DigitChar(a) == s[0] == DigitChar(b);
    } else {
      var pa, pb := NatToString(a / 10), NatToString(b / 10);
      assert s == pa + [DigitChar(a % 10)];
      assert s == pb + [DigitChar(b % 10)];
      assert |pa| == |pb|;
      assert DigitChar(a % 10) == s[|s| - 1] == DigitChar(b % 10);
      assert pa == s[..|s| - 1] == pb;
      NatToStringInjective(a / 10, b / 10);
    }
  }

  /** Distinct counters render differently. */
  lemma IntToStringInjective(a: int, b: int)
    requires IntToString(a) == IntToString(b)
    ensures a == b
  {
    var s := IntToString(a);
    if a < 0 {
      assert b < 0;
      assert NatToString(-a) == s[1..] == NatToString(-b);
      NatToStringInjective(-a, -b);
    } else {
      assert b >= 0;
      NatToStringInjective(a, b);
    }
  }

  /** Index of the last occurrence of `c` in `s`, or -1 when there is none. */
  function LastIndexOf(s: string, c: char): (r: int)
    ensures -1 <= r < |s|
    ensures r >= 0 ==> s[r] == c
    ensures forall k :: r < k < |s| ==> s[k] != c
  {
    if |s| == 0 then -1
    else if s[|s| - 1] == c then |s| - 1
    else LastIndexOf(s[..|s| - 1], c)
  }

  /** The `{name}_{counter}` segment of a virtual path. */
  function SplitSegment(name: string, counter: int): string
  {
    name + "_" + IntToString(counter)
  }

  /** The virtual path `|{name}_{counter}|{path}` under which a collection
      forces its patched IMC file for the game path `path`. The game path
      is the tail after a pipe, and the segment between the leading pipe and
      that one gives the collection name back to the load handler. */
  function CreateImcPath(name: string, counter: int, path: string): (r: string)
    ensures |r| >= |path| + 2 && r[0] == '|' && r[|r| - |path| - 1] == '|'
    ensures r[|r| - |path|..] == path
    ensures r[1..|r| - |path| - 1] == SplitSegment(name, counter)
    ensures NamesCollection(r, path, name)
  {
    ImcPathParts("|", SplitSegment(name, counter), "|", path);
    CollectionNameRoundTrip(name, counter);
    "|" + SplitSegment(name, counter) + "|" + path
  }

  /** The segment of the virtual path `full` before its game path `path`
      names the collection `name` to the load handler. */
  predicate NamesCollection(full: string, path: string, name: string)
    requires |full| >= |path| + 2
  {
    CollectionNameOf(full[1..|full| - |path| - 1]) == name
  }

  /** Slicing a three-part concatenation with single-character delimiters. */
  lemma ImcPathParts(open: string, split: string, mid: string, path: string)
    requires |open| == 1 && |mid| == 1
    ensures var r := open + split + mid + path;
            && r[0] == open[0] && r[|r| - |path| - 1] == mid[0]
            && r[|r| - |path|..] == path && r[1..|r| - |path| - 1] == split
  {
  }

  /** The collection name the load handler recovers from a segment: the
      prefix before the last `_`, or the whole segment when there is none. */
  function CollectionNameOf(split: string): (name: string)
    ensures '_' !in split ==> name == split
    ensures '_' in split ==>
              && |name| < |split|
              && split == name + "_" + split[|name| + 1..]
              && '_' !in split[|name| + 1..]
  {
    var i := LastIndexOf(split, '_');
    if i == -1 then split
    else
      assert split == split[..i] + "_" + split[i + 1..];
      split[..i]
  }

  /** Cutting at the last delimiter is unambiguous: two strings that end in
      the delimiter followed by a delimiter-free tail agree on head and tail. */
  lemma SplitAtLast(a: string, x: string, b: string, y: string, c: char)
    requires c !in x && c !in y
    requires a + [c] + x == b + [c] + y
    ensures a == b && x == y
  {
    var s := a + [c] + x;
    assert s[|a|] == c && s[|b|] == c;
    assert forall k :: |a| < k < |s| ==> s[k] == x[k - |a| - 1] && x[k - |a| - 1] in x;
    assert forall k :: |b| < k < |s| ==> s[k] == y[k - |b| - 1] && y[k - |b| - 1] in y;
    assert |a| == |b|;
    assert a == s[..|a|] == b;
    assert x == s[|a| + 1..] == y;
  }

  /** Cutting at the first delimiter is unambiguous: two strings that start
      with a delimiter-free head followed by the delimiter agree on both. */
  lemma SplitAtFirst(a: string, x: string, b: string, y: string, c: char)
    requires c !in a && c !in b
    requires a + [c] + x == b + [c] + y
    ensures a == b && x == y
  {
    var s := a + [c] + x;
    assert s[|a|] == c && s[|b|] == c;
    assert forall k :: 0 <= k < |a| ==> s[k] == a[k] && a[k] in a;
    assert forall k :: 0 <= k < |b| ==> s[k] == b[k] && b[k] in b;
    assert |a| == |b|;
    assert a == s[..|a|] == b;
    assert x == s[|a| + 1..] == y;
  }

  /** Name round trip: the load handler recovers exactly the collection name
      from the segment the virtual path carries, underscores in the name
      included. */
  lemma CollectionNameRoundTrip(name: string, counter: int)
    ensures CollectionNameOf(SplitSegment(name, counter)) == name
  {
    var split := SplitSegment(name, counter);
    var digits := IntToString(counter);
    assert split == name + "_" + digits;
    assert split[|name|] == '_';
    var n := CollectionNameOf(split);
    var tail := split[|n| + 1..];
    assert split == n + "_" + tail;
    SplitAtLast(n, tail, name, digits, '_');
  }

  /** Generation isolation: one collection name under two different counters
      never yields the same virtual path, whatever the two game paths. */
  lemma GenerationIsolation(name: string, c1: int, p1: string, c2: int, p2: string)
    requires c1 != c2
    ensures CreateImcPath(name, c1, p1) != CreateImcPath(name, c2, p2)
  {
    if CreateImcPath(name, c1, p1) == CreateImcPath(name, c2, p2) {
      var prefix := "|" + name + "_";
      var d1, d2 := IntToString(c1), IntToString(c2);
      ImcPathShape(name, c1, p1);
      ImcPathShape(name, c2, p2);
      StripPrefix(prefix, d1 + "|" + p1, d2 + "|" + p2);
      SplitAtFirst(d1, p1, d2, p2, '|');
      IntToStringInjective(c1, c2);
    }
  }

  /** The virtual path as the fixed prefix `|{name}_` followed by the
      counter and the game path. */
  lemma ImcPathShape(name: string, counter: int, path: string)
    ensures CreateImcPath(name, counter, path) == ("|" + name + "_") + (IntToString(counter) + "|" + path)
  {
    var d := IntToString(counter);
    calc {
      CreateImcPath(name, counter, path);
      "|" + (name + "_" + d) + "|" + path;
      ("|" + name + "_") + (d + "|" + path);
    }
  }

  /** Equal strings with a common prefix agree after it. */
  lemma StripPrefix(prefix: string, x: string, y: string)
    requires prefix + x == prefix + y
    ensures x == y
  {
    assert x == (prefix + x)[|prefix|..];
  }

  /** For game paths without `|`, the virtual path determines collection
      name, counter and game path: distinct triples never collide. */
  lemma CreateImcPathInjective(n1: string, c1: int, p1: string, n2: string, c2: int, p2: string)
    requires '|' !in p1 && '|' !in p2
    requires CreateImcPath(n1, c1, p1) == CreateImcPath(n2, c2, p2)
    ensures n1 == n2 && c1 == c2 && p1 == p2
  {
    var s1, s2 := SplitSegment(n1, c1), SplitSegment(n2, c2);
    DropLeadingPipe(s1, p1);
    DropLeadingPipe(s2, p2);
    SplitAtLast(s1, p1, s2, p2, '|');
    SplitAtLast(n1, IntToString(c1), n2, IntToString(c2), '_');
    IntToStringInjective(c1, c2);
  }

  /** The virtual path without its leading `|`. */
  lemma DropLeadingPipe(split: string, path: string)
    ensures ("|" + split + "|" + path)[1..] == split + "|" + path
  {
  }
}

=== FILE: MetaImc.dfy ===
/** The per-collection IMC part of the meta manager: the patched IMC files
    by game path, the live IMC manipulations, the redirections issued to the
    owning collection, and the process-wide count of managers that keeps the
    two resource handlers subscribed. */
module MetaImc {
  import opened Wrappers
  import ImcPaths

  type GamePath = string
  type Bytes = seq<bv8>

  /** Everything that identifies an IMC manipulation. Two manipulations are
      equal exactly when their keys are: the entry they write takes no part
      in equality. `target` stands for the object-type and id fields that
      select the IMC file. */
  datatype ManipKey = ManipKey(target: nat, equipSlot: nat, variant: nat)

  /** The IMC entry a manipulation writes. */
  datatype ImcEntry = ImcEntry(raw: nat)

  datatype ImcManipulation = ImcManipulation(key: ManipKey, entry: ImcEntry)

  /** A patched IMC file: its bytes and whether they changed since they were
      last written into a loaded resource. */
  datatype ImcFile = ImcFile(data: Bytes, changesSinceLoad: bool)

  /** What the store reads of its collection. */
  datatype CollectionInfo = CollectionInfo(name: string, recomputeCounter: int, hasCache: bool)

  /** A redirection issued to the collection's resolved-file table. */
  datatype Redirection = ForceFile(path: GamePath, fullPath: string) | RemoveFile(path: GamePath)

  /** What applying a manipulation to a file did: wrote it (new bytes), left
      the file alone and reported false, or threw. */
  datatype ApplyOutcome = Applied(data: Bytes) | NotApplied | Threw

  /** The IMC file format and manipulation code, which this model does not
      look inside: the game path of a manipulation, opening a fresh file for
      a game path (None when the constructor throws), applying a
      manipulation, the game's default entry for (path, slot, variant), and
      resetting a file to the game's bytes. */
  datatype ImcEnv = ImcEnv(
    gamePath: ManipKey -> GamePath,
    open: GamePath -> Option<ImcFile>,
    apply: (ImcManipulation, ImcFile) -> ApplyOutcome,
    getDefault: (GamePath, nat, nat) -> ImcEntry,
    reset: (GamePath, ImcFile) -> ImcFile)

  /** The store. `order` is the enumeration order of the file dictionary:
      keys are only ever added (or all cleared), so it is insertion order.
      `imcExceptions` stands for the process-wide `ImcExceptions` counter as
      this store's operations move it: it grows by one for every open or
      apply that threw, and not for an apply that merely returned false. */
  datatype ImcCache = ImcCache(
    files: map<GamePath, ImcFile>,
    order: seq<GamePath>,
    manipulations: seq<ImcManipulation>,
    collection: CollectionInfo,
    redirections: seq<Redirection>,
    imcExceptions: nat)

  predicate NoDuplicates<T(==)>(xs: seq<T>)
  {
    forall i, j :: 0 <= i < j < |xs| ==> xs[i] != xs[j]
  }

  /** No two live manipulations are equal. */
  predicate UniqueKeys(ms: seq<ImcManipulation>)
  {
    forall i, j :: 0 <= i < j < |ms| ==> ms[i].key != ms[j].key
  }

  predicate HasKey(ms: seq<ImcManipulation>, k: ManipKey)
  {
    exists i :: 0 <= i < |ms| && ms[i].key == k
  }

  /** The store invariant: the enumeration order lists every file exactly
      once, and the manipulation list holds no two equal manipulations. */
  ghost predicate Valid(s: ImcCache)
  {
    && NoDuplicates(s.order)
    && (forall p :: p in s.files <==> p in s.order)
    && UniqueKeys(s.manipulations)
  }

  /** The virtual path this collection forces for `path`. */
  function CollectionImcPath(c: CollectionInfo, path: GamePath): string
  {
    ImcPaths.CreateImcPath(c.name, c.recomputeCounter, path)
  }

  // ---------------------------------------------------------------------
  // The manipulation list (`List<ImcManipulation>`)
  // ---------------------------------------------------------------------

  /** Position of the first manipulation equal to key `k`, or -1. */
  function IndexOfKey(ms: seq<ImcManipulation>, k: ManipKey): (i: int)
    ensures -1 <= i < |ms|
    ensures i >= 0 ==> ms[i].key == k
    ensures forall j :: 0 <= j < |ms| && (i == -1 || j < i) ==> ms[j].key != k
  {
    if |ms| == 0 then -1
    else if ms[0].key == k then 0
    else
      var i := IndexOfKey(ms[1..], k);
      if i == -1 then -1 else i + 1
  }

  /** Insert-or-replace: an equal manipulation is overwritten in place,
      otherwise `m` is appended. */
  function AddOrReplace(ms: seq<ImcManipulation>, m: ImcManipulation): (r: seq<ImcManipulation>)
    ensures m in r
    ensures |r| == if HasKey(ms, m.key) then |ms| else |ms| + 1
    ensures forall j :: 0 <= j < |ms| && ms[j].key != m.key ==> r[j] == ms[j]
    ensures forall x :: x in r ==> x == m || x in ms
    ensures UniqueKeys(ms) ==> UniqueKeys(r)
  {
    var i := IndexOfKey(ms, m.key);
    if i == -1 then ms + [m]
    else
      assert ms[i := m][i] == m;
      ms[i := m]
  }

  /** The list without its element at `i`: every other element kept, in
      order. */
  function RemoveAt(ms: seq<ImcManipulation>, i: nat): (r: seq<ImcManipulation>)
    requires i < |ms|
    ensures |r| == |ms| - 1
    ensures forall j :: 0 <= j < |r| ==> r[j] == if j < i then ms[j] else ms[j + 1]
    ensures multiset(r) + multiset{ms[i]} == multiset(ms)
  {
    assert ms == ms[..i] + [ms[i]] + ms[i + 1..];
    ms[..i] + ms[i + 1..]
  }

  datatype Removal = Removal(removed: bool, rest: seq<ImcManipulation>)

  /** `List.Remove`: drops the first manipulation equal to `m`, reporting
      whether there was one. */
  function Remove(ms: seq<ImcManipulation>, m: ImcManipulation): (r: Removal)
    ensures r.removed <==> HasKey(ms, m.key)
    ensures !r.removed ==> r.rest == ms
    ensures r.removed ==> |r.rest| == |ms| - 1
    ensures r.removed ==> exists x :: x in ms && x.key == m.key && multiset(r.rest) + multiset{x} == multiset(ms)
    ensures r.removed ==> exists i :: 0 <= i < |ms| && ms[i].key == m.key && !HasKey(ms[..i], m.key)
                                      && r.rest == ms[..i] + ms[i + 1..]
    ensures forall x :: x in ms && x.key != m.key ==> x in r.rest
    ensures UniqueKeys(ms) ==> UniqueKeys(r.rest) && !HasKey(r.rest, m.key)
  {
    var i := IndexOfKey(ms, m.key);
    if i == -1 then Removal(false, ms)
    else
      var rest := RemoveAt(ms, i);
      RemoveKeepsOthers(ms, i, m.key);
      assert !HasKey(ms[..i], m.key);
      assert rest == ms[..i] + ms[i + 1..];
      Removal(true, rest)
  }

  /** Removing the first element with key `k` keeps every element with
      another key, and from a duplicate-free list leaves none with key `k`. */
  lemma RemoveKeepsOthers(ms: seq<ImcManipulation>, i: nat, k: ManipKey)
    requires i < |ms| && ms[i].key == k
    ensures forall x :: x in ms && x.key != k ==> x in RemoveAt(ms, i)
    ensures UniqueKeys(ms) ==> UniqueKeys(RemoveAt(ms, i)) && !HasKey(RemoveAt(ms, i), k)
  {
  }

  /** Insert-or-replace is idempotent. */
  lemma AddOrReplaceIdempotent(ms: seq<ImcManipulation>, m: ImcManipulation)
    ensures AddOrReplace(AddOrReplace(ms, m), m) == AddOrReplace(ms, m)
  {
    var r := AddOrReplace(ms, m);
    var i := IndexOfKey(ms, m.key);
    if i == -1 {
      assert r == ms + [m];
      assert IndexOfKey(r, m.key) == |ms|;
    } else {
      assert r == ms[i := m];
      assert forall j :: 0 <= j < i ==> r[j] == ms[j];
      assert r[i].key == m.key;
      assert IndexOfKey(r, m.key) == i;
    }
  }

  /** Last write wins: after writing `m1` and then an equal `m2`, the list
      holds exactly one manipulation with that key, and it is `m2`. */
  lemma LastWriteWins(ms: seq<ImcManipulation>, m1: ImcManipulation, m2: ImcManipulation)
    requires UniqueKeys(ms)
    requires m1.key == m2.key
    ensures var r := AddOrReplace(AddOrReplace(ms, m1), m2);
            m2 in r && forall x :: x in r && x.key == m2.key ==> x == m2
  {
  }

  /** Removing a manipulation that was just added to a list that did not
      hold it gives back the original list. */
  lemma RemoveUndoesAdd(ms: seq<ImcManipulation>, m: ImcManipulation)
    requires !HasKey(ms, m.key)
    ensures Remove(AddOrReplace(ms, m), m).rest == ms
  {
  }

  // ---------------------------------------------------------------------
  // ApplyMod
  // ---------------------------------------------------------------------

  /** The file a manipulation is applied to: the stored one, or a freshly
      opened one (None when opening throws). */
  function TargetFile(s: ImcCache, path: GamePath, env: ImcEnv): Option<ImcFile>
  {
    if path in s.files then Some(s.files[path]) else env.open(path)
  }

  /** Whether applying `m` throws, either while opening a fresh file or
      inside the apply itself. */
  predicate ApplyFaults(s: ImcCache, m: ImcManipulation, env: ImcEnv)
  {
    var t := TargetFile(s, env.gamePath(m.key), env);
    t.None? || env.apply(m, t.value).Threw?
  }

  datatype ApplyStep = ApplyStep(cache: ImcCache, success: bool)

  /** Records `m` as live, applies it to the file for its game path, stores
      the file only when the apply succeeded, and forces the virtual path
      when the collection has a cache. */
  function ApplyMod(s: ImcCache, m: ImcManipulation, env: ImcEnv): (r: ApplyStep)
    ensures r.cache.manipulations == AddOrReplace(s.manipulations, m)
    ensures r.cache.collection == s.collection
    ensures var t := TargetFile(s, env.gamePath(m.key), env);
            r.success <==> t.Some? && env.apply(m, t.value).Applied?
    ensures r.success ==>
              var p := env.gamePath(m.key);
              var t := TargetFile(s, p, env);
              && t.Some?
              && r.cache.files == s.files[p := ImcFile(env.apply(m, t.value).data, true)]
              && r.cache.order == if p in s.files then s.order else s.order + [p]
    ensures !r.success ==> r.cache.files == s.files && r.cache.order == s.order
    ensures r.cache.imcExceptions == s.imcExceptions + (if ApplyFaults(s, m, env) then 1 else 0)
    ensures r.cache.redirections ==
              s.redirections
              + (if r.success && s.collection.hasCache
                 then [ForceFile(env.gamePath(m.key), CollectionImcPath(s.collection, env.gamePath(m.key)))]
                 else [])
  {
    var s1 := s.(manipulations := AddOrReplace(s.manipulations, m));
    var path := env.gamePath(m.key);
    match TargetFile(s, path, env)
    case None => ApplyStep(s1.(imcExceptions := s.imcExceptions + 1), false)
    case Some(file) =>
      match env.apply(m, file)
      case Threw => ApplyStep(s1.(imcExceptions := s.imcExceptions + 1), false)
      case NotApplied => ApplyStep(s1, false)
      case Applied(data) =>
        var order := if path in s.files then s.order else s.order + [path];
        var s2 := s1.(files := s.files[path := ImcFile(data, true)], order := order);
        if s.collection.hasCache then
          ApplyStep(s2.(redirections := s.redirections + [ForceFile(path, CollectionImcPath(s.collection, path))]), true)
        else
          ApplyStep(s2, true)
  }

  /** Applying a manipulation keeps the store invariant: a newly stored path
      is appended to the enumeration order once, and the live list gains no
      duplicate. */
  lemma ApplyModPreservesValid(s: ImcCache, m: ImcManipulation, env: ImcEnv)
    requires Valid(s)
    ensures Valid(ApplyMod(s, m, env).cache)
  {
  }

  /** Applying the same manipulation twice leaves the same live list as
      applying it once. */
  lemma ApplyModIdempotentOnList(s: ImcCache, m: ImcManipulation, env: ImcEnv)
    ensures ApplyMod(ApplyMod(s, m, env).cache, m, env).cache.manipulations
         == ApplyMod(s, m, env).cache.manipulations
  {
    AddOrReplaceIdempotent(s.manipulations, m);
  }

  // ---------------------------------------------------------------------
  // RevertMod
  // ---------------------------------------------------------------------

  /** How a call ended: it returned a value, or an exception escaped it. */
  datatype CallResult = Returned(value: bool) | Raised

  datatype RevertStep = RevertStep(cache: ImcCache, result: CallResult)

  /** The manipulation that restores the game's default entry where `m`
      wrote. */
  function DefaultOf(m: ImcManipulation, env: ImcEnv): (d: ImcManipulation)
    ensures d.key == m.key
    ensures d.entry == env.getDefault(env.gamePath(m.key), m.key.equipSlot, m.key.variant)
  {
    m.(entry := env.getDefault(env.gamePath(m.key), m.key.equipSlot, m.key.variant))
  }

  /** Removes `m` from the live list and re-applies the game's default entry
      for its slot and variant to the stored file. `useImc` is the
      compile-time switch that enables the body at all. An exception from
      the apply is not caught here. */
  function RevertMod(s: ImcCache, m: ImcManipulation, env: ImcEnv, useImc: bool): (r: RevertStep)
    ensures !useImc ==> r == RevertStep(s, Returned(false))
    ensures !HasKey(s.manipulations, m.key) ==> r == RevertStep(s, Returned(false))
    ensures useImc ==> r.cache.manipulations == Remove(s.manipulations, m).rest
    ensures useImc && UniqueKeys(s.manipulations) ==> !HasKey(r.cache.manipulations, m.key)
    ensures r.result == Returned(true) <==>
              && useImc && HasKey(s.manipulations, m.key)
              && env.gamePath(m.key) in s.files
              && env.apply(DefaultOf(m, env), s.files[env.gamePath(m.key)]).Applied?
    ensures r.result == Raised <==>
              && useImc && HasKey(s.manipulations, m.key)
              && env.gamePath(m.key) in s.files
              && env.apply(DefaultOf(m, env), s.files[env.gamePath(m.key)]).Threw?
    ensures r.result == Returned(true) ==>
              var p := env.gamePath(m.key);
              r.cache.files == s.files[p := ImcFile(env.apply(DefaultOf(m, env), s.files[p]).data, true)]
    ensures r.result != Returned(true) ==> r.cache.files == s.files
    ensures r.cache.redirections ==
              s.redirections
              + (if r.result == Returned(true) && s.collection.hasCache
                 then [ForceFile(env.gamePath(m.key), CollectionImcPath(s.collection, env.gamePath(m.key)))]
                 else [])
    ensures r.cache.order == s.order && r.cache.collection == s.collection
    ensures r.cache.imcExceptions == s.imcExceptions
  {
    if !useImc then RevertStep(s, Returned(false))
    else
      var removal := Remove(s.manipulations, m);
      if !removal.removed then RevertStep(s, Returned(false))
      else
        var s1 := s.(manipulations := removal.rest);
        var path := env.gamePath(m.key);
        if path !in s.files then RevertStep(s1, Returned(false))
        else
          match env.apply(DefaultOf(m, env), s.files[path])
          case Threw => RevertStep(s1, Raised)
          case NotApplied => RevertStep(s1, Returned(false))
          case Applied(data) =>
            var s2 := s1.(files := s.files[path := ImcFile(data, true)]);
            if s.collection.hasCache then
              RevertStep(s2.(redirections := s.redirections + [ForceFile(path, CollectionImcPath(s.collection, path))]), Returned(true))
            else
              RevertStep(s2, Returned(true))
  }

  /** Reverting keeps the store invariant. */
  lemma RevertModPreservesValid(s: ImcCache, m: ImcManipulation, env: ImcEnv, useImc: bool)
    requires Valid(s)
    ensures Valid(RevertMod(s, m, env, useImc).cache)
  {
  }

  /** Reverting a manipulation that was applied to a list not holding it
      gives back the original live list, whatever became of the file. */
  lemma RevertUndoesApplyOnList(s: ImcCache, m: ImcManipulation, env: ImcEnv)
    requires !HasKey(s.manipulations, m.key)
    ensures RevertMod(ApplyMod(s, m, env).cache, m, env, true).cache.manipulations == s.manipulations
  {
  }

  // ---------------------------------------------------------------------
  // ResetImc, SetImcFiles, DisposeImc
  // ---------------------------------------------------------------------

  /** Every file of the store reset to the game's bytes; keys unchanged. */
  function ResetFiles(files: map<GamePath, ImcFile>, env: ImcEnv): (r: map<GamePath, ImcFile>)
    ensures r.Keys == files.Keys
    ensures forall p :: p in files ==> r[p] == env.reset(p, files[p])
  {
    map p | p in files :: env.reset(p, files[p])
  }

  /** One `RemoveFile` per path, in the given order. */
  function RemoveAll(paths: seq<GamePath>): (r: seq<Redirection>)
    ensures |r| == |paths|
    ensures forall i :: 0 <= i < |paths| ==> r[i] == RemoveFile(paths[i])
    ensures forall p :: RemoveFile(p) in r <==> p in paths
  {
    var r := seq(|paths|, i requires 0 <= i < |paths| => RemoveFile(paths[i]));
    assert forall p :: RemoveFile(p) in r ==> p in paths by {
      forall p | RemoveFile(p) in r ensures p in paths {
        var i :| 0 <= i < |r| && r[i] == RemoveFile(p);
      }
    }
    assert forall i :: 0 <= i < |paths| ==> RemoveFile(paths[i]) in r by {
      forall i | 0 <= i < |paths| ensures RemoveFile(paths[i]) in r {
        assert r[i] == RemoveFile(paths[i]);
      }
    }
    r
  }

  /** One `ForceFile` to the collection's virtual path per path, in the
      given order. */
  function ForceAll(c: CollectionInfo, paths: seq<GamePath>): (r: seq<Redirection>)
    ensures |r| == |paths|
    ensures forall i :: 0 <= i < |paths| ==> r[i] == ForceFile(paths[i], CollectionImcPath(c, paths[i]))
  {
    seq(|paths|, i requires 0 <= i < |paths| => ForceFile(paths[i], CollectionImcPath(c, paths[i])))
  }

  /** Empties the live list and resets every file in place, keeping the
      files; with a cache, every file's redirection is removed first. */
  function ResetImc(s: ImcCache, env: ImcEnv): (r: ImcCache)
    ensures r.manipulations == []
    ensures r.files.Keys == s.files.Keys && r.order == s.order
    ensures forall p :: p in s.files ==> r.files[p] == env.reset(p, s.files[p])
    ensures |r.redirections| >= |s.redirections| && r.redirections[..|s.redirections|] == s.redirections
    ensures !s.collection.hasCache ==> r.redirections == s.redirections
    ensures s.collection.hasCache ==>
              |r.redirections| == |s.redirections| + |s.order|
              && forall i :: 0 <= i < |s.order| ==> r.redirections[|s.redirections| + i] == RemoveFile(s.order[i])
    ensures Valid(s) && s.collection.hasCache ==>
              forall p :: p in s.files <==> RemoveFile(p) in r.redirections[|s.redirections|..]
    ensures r.collection == s.collection && r.imcExceptions == s.imcExceptions
    ensures Valid(s) ==> Valid(r)
  {
    var issued := if s.collection.hasCache then RemoveAll(s.order) else [];
    var r := s.(files := ResetFiles(s.files, env), manipulations := [], redirections := s.redirections + issued);
    assert r.redirections[|s.redirections|..] == issued;
    r
  }

  /** With a cache, forces the virtual path of every stored file; without
      one, does nothing. */
  function SetImcFiles(s: ImcCache): (r: ImcCache)
    ensures !s.collection.hasCache ==> r == s
    ensures r.files == s.files && r.order == s.order && r.manipulations == s.manipulations
    ensures |r.redirections| >= |s.redirections| && r.redirections[..|s.redirections|] == s.redirections
    ensures s.collection.hasCache ==>
              |r.redirections| == |s.redirections| + |s.order|
              && forall i :: 0 <= i < |s.order| ==>
                   r.redirections[|s.redirections| + i] == ForceFile(s.order[i], CollectionImcPath(s.collection, s.order[i]))
    ensures Valid(s) && s.collection.hasCache ==>
              forall p :: p in s.files <==>
                ForceFile(p, CollectionImcPath(s.collection, p)) in r.redirections[|s.redirections|..]
    ensures r.collection == s.collection && r.imcExceptions == s.imcExceptions
    ensures Valid(s) ==> Valid(r)
  {
    if !s.collection.hasCache then s
    else
      var issued := ForceAll(s.collection, s.order);
      var r := s.(redirections := s.redirections + issued);
      assert r.redirections[|s.redirections|..] == issued;
      assert forall p :: ForceFile(p, CollectionImcPath(s.collection, p)) in issued ==> p in s.order by {
        forall p | ForceFile(p, CollectionImcPath(s.collection, p)) in issued ensures p in s.order {
          var i :| 0 <= i < |issued| && issued[i] == ForceFile(p, CollectionImcPath(s.collection, p));
        }
      }
      r
  }

  // ---------------------------------------------------------------------
  // Handler subscription count (`_imcManagerCount`)
  // ---------------------------------------------------------------------

  /** The process-wide manager count and how many times each of the two
      handlers is subscribed to the resource loader's events. */
  datatype ImcDelegates = ImcDelegates(managerCount: int, loadCustomization: nat, resourceLoaded: nat)

  /** Both handlers are subscribed once while some manager is alive, and not
      at all otherwise. */
  predicate Consistent(d: ImcDelegates)
  {
    var expected := if d.managerCount > 0 then 1 else 0;
    d.loadCustomization == expected && d.resourceLoaded == expected
  }

  /** `-=` on an event: removes one subscription if there is one. */
  function Unsubscribe(n: nat): (r: nat)
    ensures n > 0 ==> r + 1 == n
    ensures n == 0 ==> r == 0
  {
    if n == 0 then 0 else n - 1
  }

  /** Counts one more manager; subscribes both handlers on 0 -> 1. */
  function SetupImcDelegate(d: ImcDelegates): (r: ImcDelegates)
    ensures r.managerCount == d.managerCount + 1
    ensures r.loadCustomization != d.loadCustomization <==> d.managerCount == 0
    ensures r.resourceLoaded != d.resourceLoaded <==> d.managerCount == 0
    ensures r.loadCustomization >= d.loadCustomization && r.resourceLoaded >= d.resourceLoaded
    ensures Consistent(d) ==> Consistent(r)
  {
    if d.managerCount == 0 then
      ImcDelegates(1, d.loadCustomization + 1, d.resourceLoaded + 1)
    else
      d.(managerCount := d.managerCount + 1)
  }

  /** Counts one manager less; unsubscribes both handlers on 1 -> 0. */
  function RestoreImcDelegate(d: ImcDelegates): (r: ImcDelegates)
    ensures r.managerCount == d.managerCount - 1
    ensures r.managerCount != 0 ==> r.loadCustomization == d.loadCustomization && r.resourceLoaded == d.resourceLoaded
    ensures r.loadCustomization <= d.loadCustomization && r.resourceLoaded <= d.resourceLoaded
    ensures Consistent(d) && d.managerCount == 1 ==> r.loadCustomization == 0 && r.resourceLoaded == 0
    ensures Consistent(d) ==> Consistent(r)
  {
    var count := d.managerCount - 1;
    if count == 0 then
      ImcDelegates(0, Unsubscribe(d.loadCustomization), Unsubscribe(d.resourceLoaded))
    else
      d.(managerCount := count)
  }

  /** A manager created and disposed leaves count and subscriptions where
      they were, from any state. */
  lemma SetupThenRestore(d: ImcDelegates)
    ensures RestoreImcDelegate(SetupImcDelegate(d)) == d
  {
  }

  /** Disposing a manager and creating one again leaves count and
      subscriptions where they were, from any consistent state. */
  lemma RestoreThenSetup(d: ImcDelegates)
    requires Consistent(d)
    ensures SetupImcDelegate(RestoreImcDelegate(d)) == d
  {
  }

  datatype DisposeStep = DisposeStep(cache: ImcCache, delegates: ImcDelegates)

  /** Releases every file, empties the file map and the live list, and
      counts this manager out of the handler subscription. */
  function DisposeImc(s: ImcCache, d: ImcDelegates): (r: DisposeStep)
    ensures r.cache.files == map[] && r.cache.order == [] && r.cache.manipulations == []
    ensures Valid(r.cache)
    ensures r.cache.redirections == s.redirections && r.cache.collection == s.collection
    ensures r.cache.imcExceptions == s.imcExceptions
    ensures r.delegates == RestoreImcDelegate(d)
    ensures r.delegates.managerCount == d.managerCount - 1
    ensures Consistent(d) ==> Consistent(r.delegates)
  {
    DisposeStep(s.(files := map[], order := [], manipulations := []), RestoreImcDelegate(d))
  }
}

=== FILE: ModManager.dfy ===
/** The mod manager's list bookkeeping: adding, deleting, reloading and
    scanning mods while keeping every mod's `index` equal to its position,
    the classification of a rename target, the move that acts on it, and the
    `NewMods` update on path-change events. The file system and mod loading
    are oracles: plain booleans and loaded-mod values handed in. */
module ModManager {
  import opened Wrappers

  /** A mod: `id` stands for the object's identity, `folder` for the name
      of its directory inside the base path, `index` for its mutable
      position field. */
  datatype Mod = Mod(id: nat, folder: string, name: string, index: int)

  /** What `Mod.LoadMod` produced for a directory. */
  datatype LoadedMod = LoadedMod(folder: string, name: string)

  /** What `Mod.Reload` did: failed, or succeeded with the (possibly new)
      name and whether the mod's metadata changed. */
  datatype ReloadOutcome = ReloadFailed | ReloadSucceeded(name: string, metaChanged: bool)

  datatype ModPathChangeType = Added | Deleted | Moved | Reloaded | StartingReload

  /** Events the manager raises. A path change carries the mod list as the
      event's subscribers see it at the moment it fires. */
  datatype ModEvent =
    | DiscoveryStarted
    | DiscoveryFinished
    | PathChanged(kind: ModPathChangeType, mod: Mod, oldFolder: Option<string>, newFolder: Option<string>,
                  listed: seq<Mod>)
    | DataChanged(mod: Mod, oldName: string)

  /** File-system effects that took place. */
  datatype FsOp =
    | DeleteDirectory(folder: string)
    | MoveDirectory(from: string, to: string)
    | MoveDataFile(from: string, to: string)

  datatype ModStorage = ModStorage(
    mods: seq<Mod>,
    newMods: set<nat>,
    events: seq<ModEvent>,
    fsLog: seq<FsOp>,
    nextId: nat)

  /** Every mod's index is its position in the list. */
  predicate IndexInvariant(mods: seq<Mod>)
  {
    forall i :: 0 <= i < |mods| ==> mods[i].index == i
  }

  /** No two mods live in the same folder. */
  predicate UniqueFolders(mods: seq<Mod>)
  {
    forall i, j :: 0 <= i < j < |mods| ==> mods[i].folder != mods[j].folder
  }

  predicate HasFolder(mods: seq<Mod>, folder: string)
  {
    exists i :: 0 <= i < |mods| && mods[i].folder == folder
  }

  /** Under the index invariant a listed mod sits at its own index. */
  lemma ModSitsAtItsIndex(mods: seq<Mod>, mod: Mod)
    requires IndexInvariant(mods) && mod in mods
    ensures 0 <= mod.index < |mods| && mods[mod.index] == mod
  {
  }

  // ---------------------------------------------------------------------
  // AddMod, DeleteMod, ReloadMod
  // ---------------------------------------------------------------------

  /** Adds the mod loaded from `folder` (`loaded` is None when loading
      failed) unless a mod already lives in a folder of that name. */
  function AddMod(s: ModStorage, folder: string, loaded: Option<string>): (r: ModStorage)
    ensures HasFolder(s.mods, folder) || loaded.None? ==> r == s
    ensures !HasFolder(s.mods, folder) && loaded.Some? ==>
              && |r.mods| == |s.mods| + 1
              && r.mods[..|s.mods|] == s.mods
              && r.mods[|s.mods|] == Mod(s.nextId, folder, loaded.value, |s.mods|)
              && r.events == s.events + [PathChanged(Added, r.mods[|s.mods|], None, Some(folder), r.mods)]
    ensures r.newMods == s.newMods && r.fsLog == s.fsLog
    ensures IndexInvariant(s.mods) ==> IndexInvariant(r.mods)
    ensures UniqueFolders(s.mods) ==> UniqueFolders(r.mods)
  {
    if HasFolder(s.mods, folder) then s
    else
      match loaded
      case None => s
      case Some(name) =>
        var mod := Mod(s.nextId, folder, name, |s.mods|);
        var mods := s.mods + [mod];
        assert mods[..|s.mods|] == s.mods;
        s.(mods := mods, nextId := s.nextId + 1,
           events := s.events + [PathChanged(Added, mod, None, Some(folder), mods)])
  }

  /** Every mod of `ms` with its index one lower. */
  function Decrement(ms: seq<Mod>): (r: seq<Mod>)
    ensures |r| == |ms|
    ensures forall j :: 0 <= j < |ms| ==> r[j] == ms[j].(index := ms[j].index - 1)
  {
    seq(|ms|, j requires 0 <= j < |ms| => ms[j].(index := ms[j].index - 1))
  }

  /** Deletes the mod's directory (when it exists; `deleteOk` says whether
      that delete succeeded, a failure being logged and ignored), raises the
      Deleted event while the mod is still listed, removes the list entry at
      the mod's index and moves every later mod one index down. */
  function DeleteMod(s: ModStorage, mod: Mod, directoryExists: bool, deleteOk: bool): (r: ModStorage)
    requires 0 <= mod.index < |s.mods|
    ensures |r.mods| == |s.mods| - 1
    ensures forall j :: 0 <= j < mod.index ==> r.mods[j] == s.mods[j]
    ensures forall j :: mod.index <= j < |r.mods| ==>
              r.mods[j] == s.mods[j + 1].(index := s.mods[j + 1].index - 1)
    ensures r.events == s.events + [PathChanged(Deleted, mod, Some(mod.folder), None, s.mods)]
    ensures r.fsLog == s.fsLog + (if directoryExists && deleteOk then [DeleteDirectory(mod.folder)] else [])
    ensures r.newMods == s.newMods
    ensures IndexInvariant(s.mods) ==> IndexInvariant(r.mods)
    ensures UniqueFolders(s.mods) ==> UniqueFolders(r.mods)
  {
    var k := mod.index;
    var mods := s.mods[..k] + Decrement(s.mods[k + 1..]);
    assert forall j :: 0 <= j < |mods| ==>
             mods[j] == if j < k then s.mods[j] else s.mods[j + 1].(index := s.mods[j + 1].index - 1);
    s.(mods := mods,
       events := s.events + [PathChanged(Deleted, mod, Some(mod.folder), None, s.mods)],
       fsLog := s.fsLog + (if directoryExists && deleteOk then [DeleteDirectory(mod.folder)] else []))
  }

  /** Deleting a listed mod removes exactly that mod: it was the entry at
      its index, and every other mod is kept in order. */
  lemma DeleteRemovesTheMod(s: ModStorage, mod: Mod, directoryExists: bool, deleteOk: bool)
    requires IndexInvariant(s.mods) && mod in s.mods
    ensures 0 <= mod.index < |s.mods|
    ensures var r := DeleteMod(s, mod, directoryExists, deleteOk);
            && mod in r.events[|r.events| - 1].listed
            && (forall j :: 0 <= j < mod.index ==> r.mods[j].id == s.mods[j].id)
            && (forall j :: mod.index < j < |s.mods| ==> r.mods[j - 1].id == s.mods[j].id)
            && r.mods == s.mods[..mod.index] + Decrement(s.mods[mod.index + 1..])
  {
    ModSitsAtItsIndex(s.mods, mod);
    var r := DeleteMod(s, mod, directoryExists, deleteOk);
    assert r.events[|r.events| - 1].listed == s.mods;
    forall j | mod.index < j < |s.mods|
      ensures r.mods[j - 1].id == s.mods[j].id
    {
      assert r.mods[j - 1] == s.mods[j].(index := s.mods[j].index - 1);
    }
  }

  /** Adding a mod and deleting it again gives back the original list. */
  lemma DeleteUndoesAdd(s: ModStorage, folder: string, name: string, directoryExists: bool, deleteOk: bool)
    requires !HasFolder(s.mods, folder)
    ensures var a := AddMod(s, folder, Some(name));
            var added := a.mods[|s.mods|];
            DeleteMod(a, added, directoryExists, deleteOk).mods == s.mods
  {
  }

  /** Reloads a mod in place; a failed reload deletes the mod instead. The
      mod is the listed one: the code mutates the object itself. */
  function ReloadMod(s: ModStorage, mod: Mod, outcome: ReloadOutcome, directoryExists: bool, deleteOk: bool)
    : (r: ModStorage)
    requires 0 <= mod.index < |s.mods| && s.mods[mod.index] == mod
    ensures |r.events| > |s.events|
    ensures r.events[..|s.events|] == s.events
    ensures r.events[|s.events|] == PathChanged(StartingReload, mod, Some(mod.folder), Some(mod.folder), s.mods)
    ensures outcome.ReloadFailed? ==>
              var started := s.(events := s.events + [PathChanged(StartingReload, mod, Some(mod.folder), Some(mod.folder), s.mods)]);
              r == DeleteMod(started, mod, directoryExists, deleteOk)
    ensures outcome.ReloadFailed? ==> |r.mods| == |s.mods| - 1
    ensures outcome.ReloadSucceeded? ==>
              && |r.mods| == |s.mods|
              && r.mods[mod.index] == mod.(name := outcome.name)
              && (forall j :: 0 <= j < |s.mods| && j != mod.index ==> r.mods[j] == s.mods[j])
              && |r.events| == |s.events| + (if outcome.metaChanged then 3 else 2)
              && r.events[|s.events| + 1] == PathChanged(Reloaded, r.mods[mod.index], Some(mod.folder), Some(mod.folder), r.mods)
              && (outcome.metaChanged ==> r.events[|s.events| + 2] == DataChanged(r.mods[mod.index], mod.name))
              && r.fsLog == s.fsLog
    ensures IndexInvariant(s.mods) ==> IndexInvariant(r.mods)
    ensures r.newMods == s.newMods
  {
    var started := s.(events := s.events + [PathChanged(StartingReload, mod, Some(mod.folder), Some(mod.folder), s.mods)]);
    match outcome
    case ReloadFailed => DeleteMod(started, mod, directoryExists, deleteOk)
    case ReloadSucceeded(name, metaChanged) =>
      var k := mod.index;
      var reloaded := mod.(name := name);
      var mods := s.mods[k := reloaded];
      var events := started.events + [PathChanged(Reloaded, reloaded, Some(mod.folder), Some(mod.folder), mods)];
      started.(mods := mods,
               events := if metaChanged then events + [DataChanged(reloaded, mod.name)] else events)
  }

  // ---------------------------------------------------------------------
  // ScanMods and DiscoverMods
  // ---------------------------------------------------------------------

  /** Appends the queued mods in queue order, each with the count of mods
      before it as its index. */
  method ScanMods(s: ModStorage, queue: seq<LoadedMod>) returns (r: ModStorage)
    ensures |r.mods| == |s.mods| + |queue|
    ensures r.mods[..|s.mods|] == s.mods
    ensures forall i :: |s.mods| <= i < |r.mods| ==>
              && r.mods[i].index == i
              && r.mods[i].folder == queue[i - |s.mods|].folder
              && r.mods[i].name == queue[i - |s.mods|].name
              && r.mods[i].id == s.nextId + (i - |s.mods|)
    ensures r.nextId == s.nextId + |queue|
    ensures IndexInvariant(s.mods) ==> IndexInvariant(r.mods)
    ensures r.newMods == s.newMods && r.events == s.events && r.fsLog == s.fsLog
  {
    r := s;
    var j := 0;
    while j < |queue|
      invariant 0 <= j <= |queue|
      invariant |r.mods| == |s.mods| + j
      invariant r.mods[..|s.mods|] == s.mods
      invariant forall i :: |s.mods| <= i < |r.mods| ==>
                  && r.mods[i].index == i
                  && r.mods[i].folder == queue[i - |s.mods|].folder
                  && r.mods[i].name == queue[i - |s.mods|].name
                  && r.mods[i].id == s.nextId + (i - |s.mods|)
      invariant r.nextId == s.nextId + j
      invariant r.newMods == s.newMods && r.events == s.events && r.fsLog == s.fsLog
    {
      var mod := Mod(r.nextId, queue[j].folder, queue[j].name, |r.mods|);
      var before := r.mods;
      r := r.(mods := r.mods + [mod], nextId := r.nextId + 1);
      assert forall t :: 0 <= t < |before| ==> r.mods[t] == before[t];
      assert r.mods[|s.mods| + j] == mod;
      j := j + 1;
    }
    if IndexInvariant(s.mods) {
      forall i | 0 <= i < |r.mods|
        ensures r.mods[i].index == i
      {
        if i < |s.mods| {
          assert r.mods[i] == r.mods[..|s.mods|][i];
        }
      }
    }
  }

  /** Rediscovers all mods: clears the list and `NewMods`, then scans when
      the base directory is valid and exists. Afterwards the indices are
      0, 1, ... whatever the list held before. */
  method DiscoverMods(s: ModStorage, valid: bool, baseExists: bool, queue: seq<LoadedMod>)
    returns (r: ModStorage)
    ensures r.newMods == {}
    ensures IndexInvariant(r.mods)
    ensures |r.mods| == if valid && baseExists then |queue| else 0
    ensures forall j :: 0 <= j < |r.mods| ==> r.mods[j].folder == queue[j].folder && r.mods[j].name == queue[j].name
    ensures r.events == s.events + [DiscoveryStarted, DiscoveryFinished]
    ensures r.fsLog == s.fsLog
  {
    var cleared := s.(mods := [], newMods := {}, events := s.events + [DiscoveryStarted]);
    var scanned := cleared;
    if valid && baseExists {
      scanned := ScanMods(cleared, queue);
      forall j | 0 <= j < |scanned.mods|
        ensures scanned.mods[j].folder == queue[j].folder && scanned.mods[j].name == queue[j].name
      {
        assert j - |cleared.mods| == j;
      }
    }
    r := scanned.(events := scanned.events + [DiscoveryFinished]);
  }

  // ---------------------------------------------------------------------
  // NewDirectoryValid and MoveModDirectory
  // ---------------------------------------------------------------------

  datatype NewDirectoryState =
    | NonExisting
    | ExistsEmpty
    | ExistsNonEmpty
    | ExistsAsFile
    | ContainsInvalidSymbols
    | Identical
    | Empty

  /** The file system as seen from the mod base directory, by entry name,
      and the symbol replacement applied to new folder names. */
  datatype FileSystem = FileSystem(
    replaceBadXivSymbols: string -> string,
    fileExists: string -> bool,
    directoryExists: string -> bool,
    directoryNonEmpty: string -> bool)

  /** A classification and the target directory (None in the first three
      states). */
  datatype DirectoryCheck = DirectoryCheck(state: NewDirectoryState, directory: Option<string>)

  /** The new name is a usable folder name different from the old one. */
  predicate CandidateName(oldName: string, newName: string, fs: FileSystem)
  {
    newName != "" && oldName != newName && fs.replaceBadXivSymbols(newName) == newName
  }

  /** Classifies a rename target; each state holds exactly when its own
      test holds and every earlier test failed. */
  function NewDirectoryValid(oldName: string, newName: string, fs: FileSystem): (r: DirectoryCheck)
    ensures r.state == Empty <==> newName == ""
    ensures r.state == Identical <==> newName != "" && oldName == newName
    ensures r.state == ContainsInvalidSymbols <==>
              newName != "" && oldName != newName && fs.replaceBadXivSymbols(newName) != newName
    ensures r.directory.Some? <==> CandidateName(oldName, newName, fs)
    ensures r.directory.Some? ==> r.directory.value == newName
    ensures r.state == ExistsAsFile <==> CandidateName(oldName, newName, fs) && fs.fileExists(newName)
    ensures r.state == NonExisting <==>
              CandidateName(oldName, newName, fs) && !fs.fileExists(newName) && !fs.directoryExists(newName)
    ensures r.state == ExistsNonEmpty <==>
              && CandidateName(oldName, newName, fs) && !fs.fileExists(newName)
              && fs.directoryExists(newName) && fs.directoryNonEmpty(newName)
    ensures r.state == ExistsEmpty <==>
              && CandidateName(oldName, newName, fs) && !fs.fileExists(newName)
              && fs.directoryExists(newName) && !fs.directoryNonEmpty(newName)
  {
    if |newName| == 0 then DirectoryCheck(Empty, None)
    else if oldName == newName then DirectoryCheck(Identical, None)
    else
      var fixedNewName := fs.replaceBadXivSymbols(newName);
      if fixedNewName != newName then DirectoryCheck(ContainsInvalidSymbols, None)
      else
        var dir := Some(fixedNewName);
        if fs.fileExists(fixedNewName) then DirectoryCheck(ExistsAsFile, dir)
        else if !fs.directoryExists(fixedNewName) then DirectoryCheck(NonExisting, dir)
        else if fs.directoryNonEmpty(fixedNewName) then DirectoryCheck(ExistsNonEmpty, dir)
        else DirectoryCheck(ExistsEmpty, dir)
  }

  /** The target is free for a move: the name is usable, and there is
      neither a file nor a non-empty directory of that name. */
  predicate FreeTarget(oldName: string, newName: string, fs: FileSystem)
  {
    && CandidateName(oldName, newName, fs)
    && !fs.fileExists(newName)
    && !(fs.directoryExists(newName) && fs.directoryNonEmpty(newName))
  }

  /** The classifier says "go" exactly for a free target. */
  lemma ProceedExactlyOnFreeTarget(oldName: string, newName: string, fs: FileSystem)
    ensures var st := NewDirectoryValid(oldName, newName, fs).state;
            st in {NonExisting, ExistsEmpty} <==> FreeTarget(oldName, newName, fs)
  {
  }

  /** The move goes ahead: the target is missing, or is an empty directory
      whose delete succeeded, and the directory move itself succeeded. */
  predicate MoveGoes(oldName: string, newName: string, fs: FileSystem, deleteOk: bool, moveOk: bool)
  {
    var st := NewDirectoryValid(oldName, newName, fs).state;
    (st == NonExisting || (st == ExistsEmpty && deleteOk)) && moveOk
  }

  /** Moves the mod's directory to `newName`, acting only when the target
      does not exist or is an empty directory (which is deleted first).
      `deleteOk` and `moveOk` say whether those file-system calls
      succeeded; `reload` is what reloading the moved mod did. The mod is
      the listed one: the code mutates the object itself. */
  function MoveModDirectory(s: ModStorage, mod: Mod, newName: string, fs: FileSystem,
                            deleteOk: bool, moveOk: bool, reload: ReloadOutcome): (r: ModStorage)
    requires 0 <= mod.index < |s.mods| && s.mods[mod.index] == mod
    ensures var st := NewDirectoryValid(mod.folder, newName, fs).state;
            st !in {NonExisting, ExistsEmpty} ==> r == s
    ensures var st := NewDirectoryValid(mod.folder, newName, fs).state;
            st == ExistsEmpty && !deleteOk ==> r == s
    ensures var st := NewDirectoryValid(mod.folder, newName, fs).state;
            (st == NonExisting || (st == ExistsEmpty && deleteOk)) && !moveOk ==>
              r == s.(fsLog := s.fsLog + (if st == ExistsEmpty then [DeleteDirectory(newName)] else []))
    ensures MoveGoes(mod.folder, newName, fs, deleteOk, moveOk) ==>
              var st := NewDirectoryValid(mod.folder, newName, fs).state;
              var name := if reload.ReloadSucceeded? then reload.name else mod.name;
              && r.fsLog == s.fsLog + (if st == ExistsEmpty then [DeleteDirectory(newName)] else [])
                            + [MoveDirectory(mod.folder, newName), MoveDataFile(mod.folder, newName)]
              && r.mods == s.mods[mod.index := mod.(folder := newName, name := name)]
              && (reload.ReloadFailed? ==> r.events == s.events)
              && (reload.ReloadSucceeded? ==>
                    && |r.events| == |s.events| + (if reload.metaChanged then 2 else 1)
                    && r.events[..|s.events|] == s.events
                    && r.events[|s.events|] == PathChanged(Moved, r.mods[mod.index], Some(mod.folder), Some(newName), r.mods)
                    && (reload.metaChanged ==> r.events[|s.events| + 1] == DataChanged(r.mods[mod.index], mod.name)))
    ensures r.newMods == s.newMods
    ensures |r.mods| == |s.mods|
    ensures forall j :: 0 <= j < |s.mods| && j != mod.index ==> r.mods[j] == s.mods[j]
    ensures r.mods[mod.index].index == mod.index
    ensures IndexInvariant(s.mods) ==> IndexInvariant(r.mods)
  {
    var check := NewDirectoryValid(mod.folder, newName, fs);
    if check.state != NonExisting && check.state != ExistsEmpty then s
    else if check.state == ExistsEmpty && !deleteOk then s
    else
      var dir := check.directory.value;
      var fsLog := if check.state == ExistsEmpty then s.fsLog + [DeleteDirectory(dir)] else s.fsLog;
      if !moveOk then s.(fsLog := fsLog)
      else
        var fsLog' := fsLog + [MoveDirectory(mod.folder, dir), MoveDataFile(mod.folder, dir)];
        var k := mod.index;
        var moved := mod.(folder := dir);
        match reload
        case ReloadFailed =>
          s.(mods := s.mods[k := moved], fsLog := fsLog')
        case ReloadSucceeded(name, metaChanged) =>
          var reloaded := moved.(name := name);
          var mods := s.mods[k := reloaded];
          var events := s.events + [PathChanged(Moved, reloaded, Some(mod.folder), Some(dir), mods)]
                        + (if metaChanged then [DataChanged(reloaded, mod.name)] else []);
          s.(mods := mods, fsLog := fsLog', events := events)
  }

  /** The mod's entry changes exactly when the target was free and the file
      operations succeeded (a missing target, or an empty one that could be
      deleted, then the move); and nothing at all changes unless the target
      was free. */
  lemma MoveOnlyToFreeTarget(s: ModStorage, mod: Mod, newName: string, fs: FileSystem,
                             deleteOk: bool, moveOk: bool, reload: ReloadOutcome)
    requires 0 <= mod.index < |s.mods| && s.mods[mod.index] == mod
    ensures var r := MoveModDirectory(s, mod, newName, fs, deleteOk, moveOk, reload);
            r.mods != s.mods <==>
              FreeTarget(mod.folder, newName, fs) && (fs.directoryExists(newName) ==> deleteOk) && moveOk
    ensures MoveModDirectory(s, mod, newName, fs, deleteOk, moveOk, reload) != s ==>
              FreeTarget(mod.folder, newName, fs)
  {
  }


  // ---------------------------------------------------------------------
  // OnModPathChange
  // ---------------------------------------------------------------------

  /** Adds an added mod to `NewMods`, drops a deleted one, and moves the
      mod's data file along with a moved directory. */
  function OnModPathChange(s: ModStorage, kind: ModPathChangeType, mod: Mod,
                           oldFolder: Option<string>, newFolder: Option<string>): (r: ModStorage)
    ensures kind == Added ==> r.newMods == s.newMods + {mod.id}
    ensures kind == Deleted ==> r.newMods == s.newMods - {mod.id}
    ensures kind != Added && kind != Deleted ==> r.newMods == s.newMods
    ensures kind == Moved && oldFolder.Some? && newFolder.Some? ==>
              r.fsLog == s.fsLog + [MoveDataFile(oldFolder.value, newFolder.value)]
    ensures r.fsLog != s.fsLog ==> kind == Moved && oldFolder.Some? && newFolder.Some?
    ensures r.mods == s.mods && r.events == s.events
  {
    match kind
    case Added => s.(newMods := s.newMods + {mod.id})
    case Deleted => s.(newMods := s.newMods - {mod.id})
    case Moved =>
      if oldFolder.Some? && newFolder.Some? then
        s.(fsLog := s.fsLog + [MoveDataFile(oldFolder.value, newFolder.value)])
      else s
    case _ => s
  }

  /** An Added event followed by a Deleted event for a mod not yet in
      `NewMods` leaves `NewMods` as it was. */
  lemma AddedThenDeletedRestoresNewMods(s: ModStorage, mod: Mod, dir: string)
    requires mod.id !in s.newMods
    ensures var a := OnModPathChange(s, Added, mod, None, Some(dir));
            OnModPathChange(a, Deleted, mod, Some(dir), None).newMods == s.newMods
  {
  }
}

=== FILE: Wrappers.dfy ===
/** An optional value: a lookup that can miss, or a call into unseen code
    that may return nothing. */
module Wrappers {

  datatype Option<+T> = None | Some(value: T) {

    /** The wrapped value, or `default` when there is none. */
    function GetOr(default: T): (r: T)
      ensures Some? ==> r == value
      ensures None? ==> r == default
    {
      match this
      case Some(v) => v
      case None => default
    }
  }
}
